=== FILE: README.md ===
# ExpenseForwarder: validation, lookup and conversion rules in Dafny

ExpenseForwarder reads an email, asks a language model to extract an expense
from it, and records that expense in a shared-expense ledger (Splitwise)
for a group. Between the extraction service and the ledger API sit a few
pure rules, and this project models and proves them:

- **Record validation** (`models.py`). A parsed expense needs a strictly
  positive amount, a three-character currency (returned upper-cased) and a
  split type of `equal`, `exact` or `percentage`. An email needs a subject
  and a body that are not blank, and both are kept stripped. An extraction
  confidence must lie in [0, 1]. A validator that would raise becomes a
  `Failure`. As with the validation library, building a record reports
  every failing field.
- **Directory lookups** (`splitwise_client.py`):
  - Finding a friend by email, first name, last name or full name, ignoring
    case. The first friend that matches wins.
  - Resolving a category name to a subcategory id. A top-level name goes to
    that category's `Other` subcategory.
  - Shaping the expense-creation request body, and reading the reply.

  The friends list and the category tree are parameters. The client would
  fetch them over HTTP.
- **Expense conversion** (`expense_converter.py`). A validated expense and a
  group id become a creation request. The request has the cost rendered
  with two decimals, the description, the currency and the group. It sends
  no users and sets `split_equally`. The ledger then splits the cost equally
  among the group, with the authenticated user as payer.
- **Configuration** (`config.py`). Settings are read from an environment
  passed in as a map. This covers the default group id, which treats a
  placeholder value as unset and never raises on text that is not a number.
  It also covers the check that the three credentials are present.

Files: `wrappers.dfy` (Option/Result), `strings.dfy` (ASCII `lower`,
`upper`, `strip`), `numerals.dfy` (two-decimal money text and integer
parsing), `search.dfy` (first-match search), `models.dfy`,
`splitwise_client.dfy`, `expense_converter.dfy`, `config.dfy`.

Modelling choices:

- Money amounts are integer cents.
- The JSON request body is a map from a `Field` enumeration to a small
  `Json` datatype.
- A friend's text fields distinguish a missing key, a JSON `null` and a
  string.

What the code does not do is not modelled either. The converter sends
`users=None` and `split_equally=True`. The code computes no shares, chooses
no payer and checks no balance, so the model proves that no users are sent,
not that shares balance. The code accepts any description, including an
empty one, and any three characters as a currency, and so does the model.

## Model

| member | source | states |
|---|---|---|
| `Models.ValidateAmount` | models.py:12 | an amount is accepted exactly when it is strictly positive, and is kept unchanged |
| `Models.ValidateCurrency` | models.py:20-25 | a currency is accepted exactly when it has three characters; the result has three characters, holds no small letter, and spells the same letters as the input ignoring case |
| `Models.ValidateCurrencyIdempotent` | models.py:23-25 | validating an accepted currency again returns it unchanged |
| `Models.ValidateSplitType` | models.py:27-33 | a split type is accepted exactly when it is `equal`, `exact` or `percentage` (case-sensitive), and is returned unchanged |
| `Models.MakeParsedExpense` | models.py:8-33 | the expense is built exactly when amount, passed currency and passed split type are all valid; otherwise each failing field, and only those, is reported; an accepted expense keeps description and amount, has a three-letter upper-case currency, and takes `USD`, `equal`, no participants and no date, category or payer when those are not passed |
| `Models.ParsedExpenseDefaults` | models.py:13-18 | an expense given only description and a positive amount has currency `USD`, split type `equal`, no participants and no date, category or payer |
| `Models.NegativeAmountRejected` | test_example.py:99-107 | amount -5 with currency `INVALID` is rejected, reporting the amount and the currency; the empty description is not an error |
| `Models.ValidateNotEmpty` | models.py:76-81 | a subject or body is rejected exactly when it is empty or all whitespace; an accepted value is non-empty, has no surrounding whitespace, and is the input with only whitespace removed around it |
| `Models.ValidateNotEmptyIdempotent` | models.py:79-81 | validating an accepted subject or body again returns it unchanged |
| `Models.MakeEmailContent` | models.py:69-81 | the email is built exactly when neither subject nor body is blank; each blank one is reported; the kept subject and body are exactly the stripped inputs, and the sender is kept |
| `Models.ValidateConfidence` | models.py:87 | a confidence is accepted exactly when it lies in [0, 1] |
| `Models.MakeExtractionResponse` | models.py:83-89 | the extraction response is built exactly when its confidence lies in [0, 1], and keeps the expense and the confidence |
| `Models.NewLedgerUser` | models.py:35-41 | a ledger user's paid share, owed share and net balance default to `"0.00"`, the rendering of zero cents, which reads back as zero |
| `Models.NewLedgerExpense` | models.py:43-54 | a ledger expense defaults to currency `USD`, equal split, and no details, date, category, group or users |
| `Strings.Lower` | splitwise_client.py:177-187 | lower-casing keeps the length and lowers each ASCII capital in place |
| `Strings.Upper` | models.py:25 | upper-casing keeps the length and raises each ASCII small letter in place |
| `Strings.Strip` | models.py:79-81 | the stripped text is empty exactly when the input is all whitespace, has no surrounding whitespace, and is a slice of the input with only whitespace outside it |
| `Strings.StripUnique` | models.py:81 | any slice that has no surrounding whitespace and only whitespace outside it is the stripped text |
| `Strings.StripIdempotent` | models.py:81 | stripping twice is stripping once |
| `Strings.StripAppendSpace` | splitwise_client.py:183 | whitespace added at the end is stripped away again |
| `Numerals.FormatCents` | expense_converter.py:34 | the rendered amount has a whole part and exactly two fractional digits |
| `Numerals.FormatCentsRoundTrip` | expense_converter.py:34 | the rendered amount reads back as exactly the amount rendered |
| `Numerals.ParseCents` | models.py:39-41 | money text is read exactly when it has an optional minus, digits, a point and two digits |
| `Numerals.ParseInt` | config.py:33-36 | text parses exactly when it is an optional sign and digits with only tab, line-break, form-feed or space characters around them, and then it denotes that literal |
| `Numerals.IntTextIffStrip` | config.py:34 | that condition holds exactly when the text has no information separator and its `strip()` is a literal, which is then the stripped text |
| `Numerals.SeparatorRejected` | config.py:34-36 | a leading information separator (code 28 to 31), which `strip()` would remove, makes the parse fail |
| `Numerals.FormatIntRoundTrip` | config.py:33-34 | under the model's parser, the decimal text of any integer parses back to that integer; Python's digit limit is not modelled |
| `Numerals.ParseIntIgnoresSpaces` | config.py:34 | a tab, line-break, form-feed or space character added before or after the text does not change what it parses to |
| `Search.First` | splitwise_client.py:175-190 | the search finds nothing exactly when no element qualifies; what it finds is an element of the list that qualifies |
| `Search.FirstAgrees` | splitwise_client.py:175-190 | two tests that agree on every element find the same element |
| `SplitwiseClient.FullName` | splitwise_client.py:181-183 | the full name has no surrounding whitespace and is the lowered first name, a space and the lowered last name with only whitespace removed around them |
| `SplitwiseClient.Matches` | splitwise_client.py:177-187 | definition: the lowered identifier equals the friend's lowered email, first name or last name, or the full name, a missing or `null` field reading as empty |
| `SplitwiseClient.FindUser` | splitwise_client.py:171-190 | no friend is returned exactly when no friend in the list matches; a returned friend is in the list and matches |
| `SplitwiseClient.FindUserIsFirst` | splitwise_client.py:175-188 | the returned friend is the first matching friend in list order |
| `SplitwiseClient.FindUserIgnoresCase` | splitwise_client.py:177-187 | identifiers that differ only in letter case find the same friend |
| `SplitwiseClient.FullNameWithoutLastName` | splitwise_client.py:181-183 | for a friend without a last name, the full name is the stripped first name alone |
| `SplitwiseClient.NullLastNamedMatches` | splitwise_client.py:181-187 | a friend with a lower-case, trimmed first name, a `null` last name and no email is matched by a non-empty identifier exactly when it equals that name ignoring case |
| `SplitwiseClient.EmptyIdentifierMatchesMissingField` | splitwise_client.py:177-187 | an empty identifier matches any friend lacking an email or a name |
| `SplitwiseClient.FindUserAsWritten` | splitwise_client.py:175-190 | the lookup in the code's own evaluation order; when it returns a friend, that friend is in the list and matches; when it raises, some friend in the list has a `null` field |
| `SplitwiseClient.AsWrittenAgreesWithoutNulls` | splitwise_client.py:177-188 | when no friend has a `null` field, the code's lookup and the corrected lookup agree |
| `SplitwiseClient.NullLastNameRaises` | splitwise_client.py:181-183 | with a friend whose last name is `null` listed first, looking up `bob` raises before reaching the friend `bob` |
| `SplitwiseClient.NullLastNameSkipped` | splitwise_client.py:175-190 | on the same list the corrected lookup returns the friend `bob` |
| `SplitwiseClient.FindSub` | splitwise_client.py:205-213 | no position is found exactly when no subcategory has the name; a found position holds the first subcategory with that name |
| `SplitwiseClient.CategoryHit` | splitwise_client.py:202-213 | a category contributes nothing exactly when neither its own name (with an `Other` subcategory) nor a subcategory name matches; a parent match yields the first `Other` subcategory's id, ahead of any subcategory-name match; any id is one of its subcategories' ids |
| `SplitwiseClient.ScanCategories` | splitwise_client.py:201-215 | the scan finds nothing exactly when no category contributes an id |
| `SplitwiseClient.FindCategory` | splitwise_client.py:192-215 | an empty name finds nothing; otherwise nothing is found exactly when no category matches by its own name (with an `Other` subcategory) or by a subcategory name |
| `SplitwiseClient.FoundCategoryIsSubcategory` | splitwise_client.py:202-213 | any id found belongs to a subcategory |
| `SplitwiseClient.FindCategoryIsFirst` | splitwise_client.py:201-215 | the id found is the contribution of the first category, in list order, that contributes one |
| `SplitwiseClient.ParentMatchPrefersOther` | splitwise_client.py:202-207 | a top-level name match resolves to the `Other` subcategory even when a subcategory has the same name |
| `SplitwiseClient.ParentWithoutOtherFallsThrough` | splitwise_client.py:202-213 | a top-level match without an `Other` subcategory and without a same-named subcategory does not stop the search |
| `SplitwiseClient.UserEntry` | splitwise_client.py:225-229 | a user entry carries exactly user id, paid share and owed share, with the user's values |
| `SplitwiseClient.UserEntries` | splitwise_client.py:222-231 | the users list keeps its length and order, entry by entry |
| `SplitwiseClient.NameRoundTrip` | models.py:46-54 | every request field is read back from its wire name, so no two fields share a name |
| `SplitwiseClient.NamesDistinct` | models.py:46-54 | distinct request fields have distinct wire names |
| `SplitwiseClient.ExpensePayload` | splitwise_client.py:219-231 | the body always carries cost, description, currency and split flag; each optional field is present exactly when set, with its value; the users list is rewritten entry by entry |
| `SplitwiseClient.DefaultExpensePayload` | splitwise_client.py:219 | an expense built from its required fields alone sends only cost, description, currency and split flag |
| `SplitwiseClient.ReadResponse` | splitwise_client.py:238-242 | the reply is rejected exactly when its `errors` object is non-empty; it is accepted exactly when it has no errors and carries its expenses, and then its errors are empty |
| `ExpenseConverter.Convert` | expense_converter.py:28-44 | the cost has two fractional digits and denotes exactly the expense's amount; description and currency are copied; the group is the one given; no users, split equally; no details, date or category |
| `ExpenseConverter.ConvertIgnoresOtherFields` | expense_converter.py:33-40 | expenses that differ only in participants, payer, split type, category or date convert to the same request |
| `ExpenseConverter.ConvertedPayloadFields` | expense_converter.py:33-40 | the body sent for a converted expense has exactly cost, description, currency, group and split flag, with the given group and split flag true |
| `ExpenseConverter.ValidatedConversion` | expense_converter.py:34-36 | for whole-cent amounts, an expense the validators accept converts to a request whose cost denotes its positive amount and whose currency is a three-letter upper-case code |
| `Config.GetEnv` | config.py:14-19 | a variable gives a value exactly when it is set, and then its value |
| `Config.GetEnvOr` | config.py:15 | a set variable gives its value, an unset one the default |
| `Config.DefaultGroupId` | config.py:28-37 | an unset or empty variable, the placeholder, or text that is not an integer gives no group; otherwise the group is the integer the text denotes |
| `Config.DefaultGroupIdReadsInteger` | config.py:33-34 | under the model's parser, a group id written in decimal is read back as that integer; Python's digit limit is not modelled |
| `Config.PlaceholderIsNotAnInteger` | config.py:32-36 | the placeholder would not parse as an integer either |
| `Config.Load` | config.py:13-39 | credentials are read as set or absent; model, redirect address and currency take the variable's value when set and otherwise `gpt-4`, the local callback address and `USD`; the three service addresses are fixed; the default group id follows its own rule |
| `Config.Missing` | config.py:44-50 | the missing list holds only required settings that are unset or empty, holds every such one, and is as long as the number of such positions |
| `Config.MissingCount` | config.py:50-52 | the count is the length of the missing list: at most three, and zero exactly when all three credentials are given |
| `Search.Keep` | config.py:50 | filtering keeps only elements that qualify, keeps every one that does, and its length is the number of qualifying positions |
| `Search.KeepAppend` | config.py:50 | filtering the empty list gives the empty list, and filtering a list with one more element at the end adds that element exactly when it qualifies; together these fix the result as the qualifying elements in order, repetitions included |
| `Config.Validate` | config.py:41-55 | validation passes exactly when the OpenAI key, client id and client secret are all set and non-empty |
| `Config.ValidateEnv` | config.py:44-55 | validation fails exactly when one of the three required variables is unset or empty |

## Findings

| source | as written | input that shows it | evidently intended | confidence | as-written member | corrected member |
|---|---|---|---|---|---|---|
| splitwise_client.py:177-183 | `friend.get(key, '').lower()`: the default covers a missing key only, so a key present with a JSON `null` calls `lower()` on `None` and raises | friends `[{"first_name": "ann", "last_name": null}, {"first_name": "bob"}]`, identifier `bob` | a `null` field reads as empty like a missing one; the search goes on and returns the friend `bob` | not executed; medium (the ledger may send `null` for a missing last name) | `SplitwiseClient.FindUserAsWritten`, `SplitwiseClient.NullLastNameRaises` | `SplitwiseClient.FindUser`, `SplitwiseClient.NullLastNameSkipped` |

## Left out

- OAuth and HTTP are network and user I/O, and are not modelled. This covers `get_authorization_url`, `authorize_interactive`, `exchange_code_for_token`, `_make_request`, the `get_*` fetchers and `get_expenses`. The lookups take the lists those fetchers return as parameters instead.
- The client constructor's credential check and its session headers are not modelled; they are session state.
- The POST inside `create_expense` is not modelled. The model covers the body built before it (`ExpensePayload`) and how the reply is read after it (`ReadResponse`).
- `ExpenseConverter.__init__` and `_get_current_user` fetch the current user over the network. The factories `create_expense_converter` and `create_splitwise_client` only construct objects. All of these are left out.
- `email_parser.py` is a remote model call with prompt templating. `main.py` is command-line handling and orchestration. `setup.py`, `example_usage.py` and `test_example.py` are scripts. None of them is modelled.
- Logging and the message `Validate` prints are left out; only its boolean result and the missing count are modelled.
- `load_dotenv` and the module-level `config` instance read files and the process environment. The environment is a map parameter instead.
- ExpenseConverter.ValidatedConversion holds for whole-cent amounts only. In the code, an amount such as 0.004 passes the `gt=0` check and is then sent with cost `"0.00"`, so an accepted expense can go out with a zero cost. The model cannot represent such an amount.
- Numerals.FormatCents renders integer cents. Python formats a binary float with `:.2f`, with float rounding. Amounts below one cent, and float representation error, are not modelled.
- Models.ValidateConfidence works on exact reals. A float NaN, which Python would reject, cannot be represented.
- Models.ValidateCurrency upper-cases ASCII only. Python's full Unicode `upper` can lengthen a string (`'ß'` becomes `'SS'`). There, an accepted three-character code can come back longer, so the model's length-3 result holds under the ASCII abstraction only.
- Strings.Lower, Strings.Upper and Strings.Strip cover ASCII letters and ASCII whitespace only. Python applies full Unicode case mapping and whitespace.
- Numerals.ParseInt follows `int()` on ASCII text: an optional sign and ASCII digits, with only tab, line-break, form-feed and space characters around them. Python also accepts underscores between digits and non-ASCII digits. Python also skips non-ASCII whitespace around the digits, such as U+00A0 or U+2003; the model rejects it. Python's `int()` rejects text with more than 4300 digits (on 3.11 and later, and on late 3.8 to 3.10 releases); the model has no digit limit, so it reads such a group id where the code gives none.
- Numerals.FormatIntRoundTrip holds for the model's parser, which has no digit limit. Python's `int()` rejects the decimal text of an integer with more than 4300 digits.
- Config.DefaultGroupIdReadsInteger holds for the model's parser. With more than 4300 digits, the code catches the error from `int()` and gives no group id.
- Type coercion by the validation library is not modelled. Examples are an amount given as text, or a `None` passed for a required string. Inputs are taken already at their declared types.
- Category and subcategory records are assumed to carry `name` and `id`. A missing key raises `KeyError` in the code, and the model does not represent it. A missing `subcategories` list reads as empty, as in the code.
- An `errors` field present in the reply but `null` is not modelled. The code lets it through the check and the response model then rejects it.

=== FILE: config.dfy ===
/**
 Settings read from the process environment, which is passed in here as a
 map from variable name to value (a variable set to the empty string maps
 to "").
 */
module Config {
  import opened Wrappers
  import opened Strings
  import opened Numerals
  import opened Search

  type Env = map<string, string>

  /** `os.getenv(name)`. */
  function GetEnv(env: Env, name: string): (r: Option<string>)
    ensures r.Some? <==> name in env
    ensures r.Some? ==> r.value == env[name]
  {
    if name in env then Some(env[name]) else None
  }

  /** `os.getenv(name, default)`. */
  function GetEnvOr(env: Env, name: string, default: string): (r: string)
    ensures name in env ==> r == env[name]
    ensures name !in env ==> r == default
  {
    GetEnv(env, name).GetOr(default)
  }

  const GroupIdVar: string := "DEFAULT_GROUP_ID"

  /** The value the sample environment file ships for the group id. */
  const GroupIdPlaceholder: string := "your_default_group_id_here"

  /** The names of the variables `Validate` requires. */
  const RequiredVars: seq<string> := ["OPENAI_API_KEY", "SPLITWISE_CLIENT_ID", "SPLITWISE_CLIENT_SECRET"]

  /** The default group id: unset, empty, the placeholder or text that is
      not an integer all give none; parsing never fails outward. */
  function DefaultGroupId(env: Env): (r: Option<int>)
    ensures GroupIdVar !in env ==> r.None?
    ensures GroupIdVar in env && env[GroupIdVar] in {"", GroupIdPlaceholder} ==> r.None?
    ensures GroupIdVar in env && ParseInt(env[GroupIdVar]).None? ==> r.None?
    ensures r.Some? ==> GroupIdVar in env && ParseInt(env[GroupIdVar]) == r
    ensures GroupIdVar in env && env[GroupIdVar] !in {"", GroupIdPlaceholder} ==> r == ParseInt(env[GroupIdVar])
  {
    match GetEnv(env, GroupIdVar)
    case Some(text) =>
      if text != "" && text != GroupIdPlaceholder then ParseInt(text) else None
    case None => None
  }

  /** A group id written in decimal is read back as that integer. */
  lemma DefaultGroupIdReadsInteger(env: Env, n: int)
    requires GroupIdVar in env && env[GroupIdVar] == FormatInt(n)
    ensures DefaultGroupId(env) == Some(n)
  {
    FormatIntRoundTrip(n);
    assert IntLiteral(env[GroupIdVar]);
  }

  /** The placeholder would not parse as an integer either: the explicit
      comparison only spares the attempt. */
  lemma PlaceholderIsNotAnInteger()
    ensures ParseInt(GroupIdPlaceholder) == None
  {
    assert Trimmed(GroupIdPlaceholder);
    StripOfTrimmed(GroupIdPlaceholder);
    assert !IsDigit(GroupIdPlaceholder[0]);
  }

  /** The settings the application runs with. */
  datatype Settings = Settings(
    openaiApiKey: Option<string>,
    openaiModel: string,
    splitwiseClientId: Option<string>,
    splitwiseClientSecret: Option<string>,
    splitwiseRedirectUri: string,
    splitwiseBaseUrl: string,
    splitwiseAuthUrl: string,
    splitwiseTokenUrl: string,
    defaultCurrency: string,
    defaultGroupId: Option<int>)

  /** Reads the settings, falling back to the documented defaults. */
  function Load(env: Env): (c: Settings)
    ensures c.openaiApiKey == GetEnv(env, "OPENAI_API_KEY")
    ensures c.splitwiseClientId == GetEnv(env, "SPLITWISE_CLIENT_ID")
    ensures c.splitwiseClientSecret == GetEnv(env, "SPLITWISE_CLIENT_SECRET")
    ensures "OPENAI_MODEL" !in env ==> c.openaiModel == "gpt-4"
    ensures "SPLITWISE_REDIRECT_URI" !in env ==> c.splitwiseRedirectUri == "http://localhost:8080/callback"
    ensures "DEFAULT_CURRENCY" !in env ==> c.defaultCurrency == "USD"
    ensures c.openaiModel == GetEnvOr(env, "OPENAI_MODEL", "gpt-4")
    ensures c.splitwiseRedirectUri == GetEnvOr(env, "SPLITWISE_REDIRECT_URI", "http://localhost:8080/callback")
    ensures c.defaultCurrency == GetEnvOr(env, "DEFAULT_CURRENCY", "USD")
    ensures c.splitwiseBaseUrl == "https://secure.splitwise.com/api/v3.0"
    ensures c.splitwiseAuthUrl == "https://secure.splitwise.com/oauth/authorize"
    ensures c.splitwiseTokenUrl == "https://secure.splitwise.com/oauth/token"
    ensures c.defaultGroupId == DefaultGroupId(env)
  {
    Settings(
      openaiApiKey := GetEnv(env, "OPENAI_API_KEY"),
      openaiModel := GetEnvOr(env, "OPENAI_MODEL", "gpt-4"),
      splitwiseClientId := GetEnv(env, "SPLITWISE_CLIENT_ID"),
      splitwiseClientSecret := GetEnv(env, "SPLITWISE_CLIENT_SECRET"),
      splitwiseRedirectUri := GetEnvOr(env, "SPLITWISE_REDIRECT_URI", "http://localhost:8080/callback"),
      splitwiseBaseUrl := "https://secure.splitwise.com/api/v3.0",
      splitwiseAuthUrl := "https://secure.splitwise.com/oauth/authorize",
      splitwiseTokenUrl := "https://secure.splitwise.com/oauth/token",
      defaultCurrency := GetEnvOr(env, "DEFAULT_CURRENCY", "USD"),
      defaultGroupId := DefaultGroupId(env))
  }

  /** A setting counts as given when it is set and not empty. */
  predicate Given(v: Option<string>) {
    v.Some? && v.value != ""
  }

  /** A required setting that is unset or empty (Python's `not var`). */
  predicate Unset(v: Option<string>) {
    !Given(v)
  }

  /** The three required settings, in the order they are checked. */
  function RequiredValues(c: Settings): seq<Option<string>> {
    [c.openaiApiKey, c.splitwiseClientId, c.splitwiseClientSecret]
  }

  /** The required settings that are missing, in order: every one it keeps
      is missing, every missing one is kept, and it keeps as many as there
      are missing positions. */
  function Missing(c: Settings): (m: seq<Option<string>>)
    ensures forall i :: 0 <= i < |m| ==> m[i] in RequiredValues(c) && !Given(m[i])
    ensures forall k :: 0 <= k < 3 && !Given(RequiredValues(c)[k]) ==> RequiredValues(c)[k] in m
    ensures |m| == |Positions(Unset, RequiredValues(c), 0)|
  {
    Keep(Unset, RequiredValues(c))
  }

  /** How many of the required settings are missing: the length of the list
      of missing ones. */
  function MissingCount(c: Settings): (n: nat)
    ensures n == |Missing(c)|
    ensures n <= 3
    ensures n == 0 <==> Given(c.openaiApiKey) && Given(c.splitwiseClientId) && Given(c.splitwiseClientSecret)
  {
    var xs := RequiredValues(c);
    assert KeepFrom(Unset, xs, 3) == [];
    assert |KeepFrom(Unset, xs, 2)| == if Given(c.splitwiseClientSecret) then 0 else 1;
    assert |KeepFrom(Unset, xs, 1)| == |KeepFrom(Unset, xs, 2)| + if Given(c.splitwiseClientId) then 0 else 1;
    (if Given(c.openaiApiKey) then 0 else 1)
    + (if Given(c.splitwiseClientId) then 0 else 1)
    + (if Given(c.splitwiseClientSecret) then 0 else 1)
  }

  /** True unless some required setting is missing. */
  function Validate(c: Settings): (ok: bool)
    ensures ok <==> Given(c.openaiApiKey) && Given(c.splitwiseClientId) && Given(c.splitwiseClientSecret)
  {
    MissingCount(c) == 0
  }

  /** In terms of the environment: validation fails exactly when one of the
      three required variables is unset or empty. */
  lemma ValidateEnv(env: Env)
    ensures Validate(Load(env)) <==> forall i :: 0 <= i < |RequiredVars| ==> RequiredVars[i] in env && env[RequiredVars[i]] != ""
  {
    assert RequiredVars[0] == "OPENAI_API_KEY";
    assert RequiredVars[1] == "SPLITWISE_CLIENT_ID";
    assert RequiredVars[2] == "SPLITWISE_CLIENT_SECRET";
  }
}

=== FILE: expense_converter.dfy ===
/**
 Turns a validated parsed expense into the ledger's expense-creation
 request for a group. The request carries no per-user shares: the
 authenticated user is taken as the payer and the ledger splits the cost
 equally among the group's members. Participants, payer, split type,
 category and date are not forwarded.
 */
module ExpenseConverter {
  import opened Wrappers
  import opened Strings
  import opened Numerals
  import opened Models
  import opened SplitwiseClient

  /** The request for `p` in group `groupId`. */
  function Convert(p: ParsedExpense, groupId: int): (r: LedgerExpense)
    ensures TwoDecimals(r.cost) && ParseCents(r.cost) == Some(p.amountCents)
    ensures r.description == p.description
    ensures r.currencyCode == p.currency
    ensures r.groupId == Some(groupId)
    ensures r.users.None? && r.splitEqually
    ensures r.details.None? && r.date.None? && r.categoryId.None?
  {
    FormatCentsRoundTrip(p.amountCents);
    LedgerExpense(
      cost := FormatCents(p.amountCents),
      description := p.description,
      details := None,
      currencyCode := p.currency,
      date := None,
      categoryId := None,
      groupId := Some(groupId),
      users := None,
      splitEqually := true)
  }

  /** Only description, amount and currency reach the request: expenses that
      differ in participants, payer, split type, category or date convert
      alike. */
  lemma ConvertIgnoresOtherFields(p: ParsedExpense, q: ParsedExpense, groupId: int)
    requires p.description == q.description
    requires p.amountCents == q.amountCents
    requires p.currency == q.currency
    ensures Convert(p, groupId) == Convert(q, groupId)
  {
  }

  /** The body sent for a converted expense has exactly cost, description,
      currency, group and the equal-split flag; no users, details, date or
      category. */
  lemma ConvertedPayloadFields(p: ParsedExpense, groupId: int)
    ensures ExpensePayload(Convert(p, groupId)).Keys == {Cost, Description, CurrencyCode, GroupId, SplitEqually}
    ensures ExpensePayload(Convert(p, groupId))[GroupId] == JInt(groupId)
    ensures ExpensePayload(Convert(p, groupId))[SplitEqually] == JBool(true)
  {
    var r := ExpensePayload(Convert(p, groupId));
    assert forall f :: f in r <==> f in {Cost, Description, CurrencyCode, GroupId, SplitEqually} by {
      forall f ensures f in r <==> f in {Cost, Description, CurrencyCode, GroupId, SplitEqually} {
        match f
        case Cost =>
        case Description =>
        case Details =>
        case CurrencyCode =>
        case Date =>
        case CategoryId =>
        case GroupId =>
        case Users =>
        case SplitEqually =>
      }
    }
  }

  /** End to end: an expense the validators accept converts to a request
      whose cost is a positive two-decimal amount equal to the expense's
      amount and whose currency is a three-letter upper-case code. */
  lemma ValidatedConversion(x: ExpenseInput, groupId: int)
    requires MakeParsedExpense(x).Success?
    ensures var r := Convert(MakeParsedExpense(x).value, groupId);
            && TwoDecimals(r.cost)
            && ParseCents(r.cost) == Some(x.amountCents)
            && x.amountCents > 0
            && |r.currencyCode| == 3
            && IsUpperCase(r.currencyCode)
  {
  }
}

=== FILE: models.dfy ===
/**
 The records exchanged between the extraction service, the converter and
 the ledger API, with the field validation each record applies when it is
 built. A validator that would raise becomes a `Failure`; like the
 validation library, building a record reports every failing field, in
 declaration order, rather than stopping at the first.
 */
module Models {
  import opened Wrappers
  import opened Strings
  import opened Numerals

  /** A calendar date and time; the core only carries it along. */
  datatype DateTime = DateTime(year: int, month: int, day: int, hour: int, minute: int, second: int)

  const DefaultCurrency: string := "USD"
  const DefaultSplitType: string := "equal"

  /** The accepted split types, compared case-sensitively. */
  const SplitTypes: seq<string> := ["equal", "exact", "percentage"]

  /** The share a ledger user carries when none is given. */
  const ZeroShare: string := "0.00"

  datatype FieldError =
    | AmountNotPositive
    | CurrencyLength
    | UnknownSplitType
    | EmptyText(field: string)
    | ConfidenceOutOfRange

  /** The errors a single field check contributes. */
  function ErrorsOf<T>(r: Result<T, FieldError>): (errs: seq<FieldError>)
    ensures |errs| <= 1
    ensures errs == [] <==> r.Success?
  {
    match r
    case Success(_) => []
    case Failure(e) => [e]
  }

  // ---------------------------------------------------------------------
  // ParsedExpense

  /** The keyword arguments a parsed expense is built from; `None` marks an
      argument that was not passed, so that its default applies. The amount
      is held in cents. */
  datatype ExpenseInput = ExpenseInput(
    description: string,
    amountCents: int,
    currency: Option<string>,
    date: Option<DateTime>,
    category: Option<string>,
    participants: Option<seq<string>>,
    splitType: Option<string>,
    paidBy: Option<string>)

  /** An expense as extracted from an email, after validation. */
  datatype ParsedExpense = ParsedExpense(
    description: string,
    amountCents: int,
    currency: string,
    date: Option<DateTime>,
    category: Option<string>,
    participants: seq<string>,
    splitType: string,
    paidBy: Option<string>)

  /** The amount must be strictly positive. */
  function ValidateAmount(cents: int): (r: Result<int, FieldError>)
    ensures r.Success? <==> cents > 0
    ensures r.Success? ==> r.value == cents
    ensures r.Failure? ==> r.error == AmountNotPositive
  {
    if cents > 0 then Success(cents) else Failure(AmountNotPositive)
  }

  /** A currency code must have three characters; it is returned
      upper-cased. */
  function ValidateCurrency(v: string): (r: Result<string, FieldError>)
    ensures r.Success? <==> |v| == 3
    ensures r.Success? ==> |r.value| == 3 && IsUpperCase(r.value) && Lower(r.value) == Lower(v)
    ensures r.Failure? ==> r.error == CurrencyLength
  {
    if |v| != 3 then
      Failure(CurrencyLength)
    else
      UpperIsUpperCase(v);
      LowerOfUpper(v);
      Success(Upper(v))
  }

  /** An accepted currency code is accepted again unchanged. */
  lemma ValidateCurrencyIdempotent(v: string)
    requires ValidateCurrency(v).Success?
    ensures ValidateCurrency(ValidateCurrency(v).value) == ValidateCurrency(v)
  {
    UpperFixesUpperCase(ValidateCurrency(v).value);
  }

  /** The split type must be one of the closed set, spelled exactly. */
  function ValidateSplitType(v: string): (r: Result<string, FieldError>)
    ensures r.Success? <==> v == "equal" || v == "exact" || v == "percentage"
    ensures r.Success? ==> r.value == v
    ensures r.Failure? ==> r.error == UnknownSplitType
  {
    if v in SplitTypes then Success(v) else Failure(UnknownSplitType)
  }

  /** Builds a parsed expense. Defaults: currency `USD`, split type `equal`,
      no participants, and no date, category or payer. The field checks run
      only on values actually passed. */
  function MakeParsedExpense(x: ExpenseInput): (r: Result<ParsedExpense, seq<FieldError>>)
    ensures r.Success? <==>
      && x.amountCents > 0
      && (x.currency.Some? ==> |x.currency.value| == 3)
      && (x.splitType.Some? ==> x.splitType.value in SplitTypes)
    ensures r.Failure? ==>
      && r.error != []
      && (AmountNotPositive in r.error <==> x.amountCents <= 0)
      && (CurrencyLength in r.error <==> x.currency.Some? && |x.currency.value| != 3)
      && (UnknownSplitType in r.error <==> x.splitType.Some? && x.splitType.value !in SplitTypes)
    ensures r.Success? ==>
      && r.value.description == x.description
      && r.value.amountCents == x.amountCents
      && |r.value.currency| == 3
      && IsUpperCase(r.value.currency)
      && Lower(r.value.currency) == Lower(x.currency.GetOr(DefaultCurrency))
      && r.value.splitType == x.splitType.GetOr(DefaultSplitType)
      && r.value.participants == x.participants.GetOr([])
      && r.value.date == x.date && r.value.category == x.category && r.value.paidBy == x.paidBy
  {
    var amount := ValidateAmount(x.amountCents);
    var currency := match x.currency
      case None => Success(DefaultCurrency)
      case Some(c) => ValidateCurrency(c);
    var splitType := match x.splitType
      case None => Success(DefaultSplitType)
      case Some(t) => ValidateSplitType(t);
    var errs := ErrorsOf(amount) + ErrorsOf(currency) + ErrorsOf(splitType);
    if errs != [] then
      Failure(errs)
    else
      Success(ParsedExpense(
        x.description,
        amount.value,
        currency.value,
        x.date,
        x.category,
        x.participants.GetOr([]),
        splitType.value,
        x.paidBy))
  }

  /** Only the amount is required besides the description; everything else
      takes its default. */
  lemma ParsedExpenseDefaults(description: string, cents: int)
    requires cents > 0
    ensures MakeParsedExpense(ExpenseInput(description, cents, None, None, None, None, None, None))
         == Success(ParsedExpense(description, cents, "USD", None, None, [], "equal", None))
  {
  }

  /** An empty description is not an error; a negative amount and a
      seven-character currency are, and both are reported. */
  lemma NegativeAmountRejected()
    ensures MakeParsedExpense(ExpenseInput("", -500, Some("INVALID"), None, None, None, None, None))
         == Failure([AmountNotPositive, CurrencyLength])
  {
    assert |"INVALID"| == 7;
    assert [AmountNotPositive] + [CurrencyLength] + [] == [AmountNotPositive, CurrencyLength];
  }

  // ---------------------------------------------------------------------
  // EmailContent

  /** The email text handed to the extraction service. */
  datatype EmailContent = EmailContent(subject: string, body: string, sender: Option<string>)

  /** Subject and body must hold something besides whitespace; they are kept
      stripped. */
  function ValidateNotEmpty(field: string, v: string): (r: Result<string, FieldError>)
    ensures r.Failure? <==> AllSpace(v)
    ensures r.Failure? ==> r.error == EmptyText(field)
    ensures r.Success? ==> r.value != [] && Trimmed(r.value) && exists i :: SliceBetweenSpace(v, r.value, i)
  {
    if v == [] || Strip(v) == [] then Failure(EmptyText(field)) else Success(Strip(v))
  }

  /** An accepted subject or body is accepted again unchanged. */
  lemma ValidateNotEmptyIdempotent(field: string, v: string)
    requires ValidateNotEmpty(field, v).Success?
    ensures ValidateNotEmpty(field, ValidateNotEmpty(field, v).value) == ValidateNotEmpty(field, v)
  {
    StripIdempotent(v);
  }

  function MakeEmailContent(subject: string, body: string, sender: Option<string>): (r: Result<EmailContent, seq<FieldError>>)
    ensures r.Success? <==> !AllSpace(subject) && !AllSpace(body)
    ensures r.Failure? ==>
      && (EmptyText("subject") in r.error <==> AllSpace(subject))
      && (EmptyText("body") in r.error <==> AllSpace(body))
    ensures r.Success? ==> Trimmed(r.value.subject) && Trimmed(r.value.body) && r.value.sender == sender
    ensures r.Success? ==> r.value.subject == Strip(subject) && r.value.body == Strip(body)
  {
    var s := ValidateNotEmpty("subject", subject);
    var b := ValidateNotEmpty("body", body);
    var errs := ErrorsOf(s) + ErrorsOf(b);
    if errs != [] then Failure(errs) else Success(EmailContent(s.value, b.value, sender))
  }

  // ---------------------------------------------------------------------
  // OpenAIResponse

  /** What the extraction service returns: the expense and how sure it is. */
  datatype ExtractionResponse = ExtractionResponse(
    parsedExpense: ParsedExpense,
    confidence: real,
    notes: Option<string>,
    emailSummary: Option<string>)

  /** The confidence must lie in the closed interval [0, 1]. */
  function ValidateConfidence(c: real): (r: Result<real, FieldError>)
    ensures r.Success? <==> 0.0 <= c <= 1.0
    ensures r.Success? ==> r.value == c
  {
    if 0.0 <= c && c <= 1.0 then Success(c) else Failure(ConfidenceOutOfRange)
  }

  function MakeExtractionResponse(expense: ParsedExpense, confidence: real, notes: Option<string>, summary: Option<string>): (r: Result<ExtractionResponse, seq<FieldError>>)
    ensures r.Success? <==> 0.0 <= confidence <= 1.0
    ensures r.Failure? ==> r.error == [ConfidenceOutOfRange]
    ensures r.Success? ==> r.value.parsedExpense == expense && r.value.confidence == confidence
  {
    match ValidateConfidence(confidence)
    case Failure(e) => Failure([e])
    case Success(c) => Success(ExtractionResponse(expense, c, notes, summary))
  }

  // ---------------------------------------------------------------------
  // Ledger request and response records

  /** One user's part in a ledger expense; shares are two-decimal text. */
  datatype LedgerUser = LedgerUser(userId: int, paidShare: string, owedShare: string, netBalance: string)

  /** A user with every share left at its default. */
  function NewLedgerUser(userId: int): (r: LedgerUser)
    ensures r.userId == userId
    ensures ParseCents(r.paidShare) == Some(0)
    ensures ParseCents(r.owedShare) == Some(0)
    ensures ParseCents(r.netBalance) == Some(0)
    ensures r.paidShare == FormatCents(0) && r.owedShare == FormatCents(0) && r.netBalance == FormatCents(0)
  {
    assert ZeroShare == FormatCents(0);
    FormatCentsRoundTrip(0);
    LedgerUser(userId, ZeroShare, ZeroShare, ZeroShare)
  }

  /** The expense creation request. Optional fields hold `None` when unset. */
  datatype LedgerExpense = LedgerExpense(
    cost: string,
    description: string,
    details: Option<string>,
    currencyCode: string,
    date: Option<string>,
    categoryId: Option<int>,
    groupId: Option<int>,
    users: Option<seq<LedgerUser>>,
    splitEqually: bool)

  /** An expense built from its two required fields only: currency `USD`,
      split equally, every optional field unset. */
  function NewLedgerExpense(cost: string, description: string): (r: LedgerExpense)
    ensures r.cost == cost && r.description == description
    ensures r.currencyCode == DefaultCurrency && r.splitEqually
    ensures r.details.None? && r.date.None? && r.categoryId.None? && r.groupId.None? && r.users.None?
  {
    LedgerExpense(cost, description, None, DefaultCurrency, None, None, None, None, true)
  }

  /** One created expense as the ledger reports it. */
  type ExpenseData = map<string, string>

  /** The ledger's reply to an expense creation, once accepted. */
  datatype LedgerExpenseResponse = LedgerExpenseResponse(expenses: seq<ExpenseData>, errors: map<string, seq<string>>)
}

=== FILE: numerals.dfy ===
/**
 Decimal text for the two numbers the core renders or reads: a money amount
 written with exactly two fractional digits (Python's `f"{x:.2f}"`, with the
 amount held as integer cents) and an integer read from the environment
 (Python's `int(text)`, restricted to an optional sign and ASCII digits).
 */
module Numerals {
  import opened Wrappers
  import opened Strings

  predicate IsDigit(c: char) {
    '0' <= c <= '9'
  }

  predicate AllDigits(s: string) {
    forall i :: 0 <= i < |s| ==> IsDigit(s[i])
  }

  function DigitChar(d: nat): (c: char)
    requires d < 10
    ensures IsDigit(c)
  {
    ('0' as int + d) as char
  }

  function DigitValue(c: char): (d: nat)
    requires IsDigit(c)
    ensures d < 10 && DigitChar(d) == c
  {
    c as int - '0' as int
  }

  /** The number a string of decimal digits denotes, most significant first. */
  function DigitsValue(s: string): nat
    requires AllDigits(s)
  {
    if s == [] then 0 else DigitsValue(s[..|s| - 1]) * 10 + DigitValue(s[|s| - 1])
  }

  /** `str(n)` for a natural number: its digits, no leading zero. */
  function NatDigits(n: nat): (r: string)
    ensures |r| >= 1 && AllDigits(r)
    ensures r[0] == '0' ==> n == 0
  {
    if n < 10 then [DigitChar(n)] else NatDigits(n / 10) + [DigitChar(n % 10)]
  }

  lemma {:induction false} NatDigitsValue(n: nat)
    ensures DigitsValue(NatDigits(n)) == n
  {
    if n >= 10 {
      var s := NatDigits(n);
      assert s[..|s| - 1] == NatDigits(n / 10);
      NatDigitsValue(n / 10);
    }
  }

  function Abs(x: int): nat {
    if x < 0 then -x else x
  }

  // ---------------------------------------------------------------------
  // Money amounts: "[-]D+.DD"

  /** An optional minus sign followed by at least one digit. */
  predicate SignedDigits(t: string) {
    || (|t| >= 1 && AllDigits(t))
    || (|t| >= 2 && t[0] == '-' && AllDigits(t[1..]))
  }

  /** Text carrying exactly two fractional digits after a whole-number part. */
  predicate TwoDecimals(s: string) {
    && |s| >= 4
    && s[|s| - 3] == '.'
    && IsDigit(s[|s| - 2])
    && IsDigit(s[|s| - 1])
    && SignedDigits(s[..|s| - 3])
  }

  /** Reads an amount in the two-decimal form back as cents: the inverse
      the ledger service applies to a `cost` or a share. */
  function ParseCents(s: string): (r: Option<int>)
    ensures r.Some? <==> TwoDecimals(s)
  {
    if TwoDecimals(s) then
      var whole := s[..|s| - 3];
      var neg := whole[0] == '-';
      var digits := if neg then whole[1..] else whole;
      var cents := DigitsValue(digits) * 100 + DigitValue(s[|s| - 2]) * 10 + DigitValue(s[|s| - 1]);
      Some(if neg then -cents else cents)
    else
      None
  }

  /** `f"{amount:.2f}"` for an amount held exactly as integer cents. */
  function FormatCents(cents: int): (r: string)
    ensures TwoDecimals(r)
  {
    var a := Abs(cents);
    var sign := if cents < 0 then "-" else "";
    sign + NatDigits(a / 100) + "." + [DigitChar(a % 100 / 10), DigitChar(a % 10)]
  }

  /** The rendered amount denotes exactly the amount rendered. */
  lemma FormatCentsRoundTrip(cents: int)
    ensures ParseCents(FormatCents(cents)) == Some(cents)
  {
    var a := Abs(cents);
    var s := FormatCents(cents);
    var digits := NatDigits(a / 100);
    NatDigitsValue(a / 100);
    if cents < 0 {
      assert s[..|s| - 3] == "-" + digits;
      assert s[..|s| - 3][1..] == digits;
    } else {
      assert s[..|s| - 3] == digits;
    }
  }

  // ---------------------------------------------------------------------
  // Integers: Python's `int(text)`

  /** After stripping: an optional `+` or `-` followed by at least one digit. */
  predicate IntLiteral(t: string) {
    || (|t| >= 1 && AllDigits(t))
    || (|t| >= 2 && (t[0] == '-' || t[0] == '+') && AllDigits(t[1..]))
  }

  /** The value of a literal that has already been stripped. */
  function LiteralValue(t: string): (r: Option<int>)
    ensures r.Some? <==> IntLiteral(t)
  {
    if |t| >= 1 && AllDigits(t) then
      Some(DigitsValue(t))
    else if IntLiteral(t) then
      var v: int := DigitsValue(t[1..]);
      Some(if t[0] == '-' then -v else v)
    else
      None
  }

  /** The whitespace `int()` skips around the digits of an ASCII string:
      tab, line feed, vertical tab, form feed, carriage return and space.
      Unlike `strip()`, it does not skip the information separators
      (28..31). */
  predicate IsIntSpace(c: char) {
    var n := c as int;
    (9 <= n <= 13) || n == 32
  }

  /** `s` is a literal at `s[i..j]` with only `int()` whitespace around it. */
  predicate IntText(s: string, i: int, j: int) {
    && 0 <= i <= j <= |s|
    && (forall k :: 0 <= k < i ==> IsIntSpace(s[k]))
    && IntLiteral(s[i..j])
    && (forall k :: j <= k < |s| ==> IsIntSpace(s[k]))
  }

  /** An information separator, which `strip()` removes but `int()` rejects. */
  predicate IsSeparator(c: char) {
    28 <= c as int <= 31
  }

  predicate NoSeparator(s: string) {
    forall k :: 0 <= k < |s| ==> !IsSeparator(s[k])
  }

  /** `int(text)` on ASCII text, with `None` where Python raises
      `ValueError`: the text is a literal surrounded by `int()` whitespace,
      and then its value is that literal's. Python's limit of 4300 digits is
      not applied. */
  function ParseInt(s: string): (r: Option<int>)
    ensures r.Some? <==> exists i, j :: IntText(s, i, j)
    ensures forall i, j :: IntText(s, i, j) ==> r == LiteralValue(s[i..j])
  {
    IntTextIffStrip(s);
    if NoSeparator(s) && IntLiteral(Strip(s)) then LiteralValue(Strip(s)) else None
  }

  /** The text is a literal in `int()` whitespace exactly when it holds no
      information separator and what `strip()` keeps is a literal; that
      literal is then the stripped text. */
  lemma IntTextIffStrip(s: string)
    ensures (exists i, j :: IntText(s, i, j)) <==> NoSeparator(s) && IntLiteral(Strip(s))
    ensures forall i, j :: IntText(s, i, j) ==> Strip(s) == s[i..j]
  {
    forall i, j | IntText(s, i, j) ensures NoSeparator(s) && Strip(s) == s[i..j] {
      IntTextIsStrip(s, i, j);
    }
    if NoSeparator(s) && IntLiteral(Strip(s)) {
      StripIsIntText(s);
    }
  }

  /** A literal that `strip()` keeps from separator-free text is surrounded
      by `int()` whitespace only. */
  lemma StripIsIntText(s: string)
    requires NoSeparator(s) && IntLiteral(Strip(s))
    ensures exists i, j :: IntText(s, i, j)
  {
    var t := Strip(s);
    var i :| SliceBetweenSpace(s, t, i);
    forall k | 0 <= k < i || i + |t| <= k < |s| ensures IsIntSpace(s[k]) {
      assert IsSpace(s[k]) && !IsSeparator(s[k]);
    }
    assert s[i..i + |t|] == t;
    assert IntText(s, i, i + |t|);
  }

  /** A literal surrounded by `int()` whitespace is what `strip()` keeps,
      and the text holds no information separator. */
  lemma IntTextIsStrip(s: string, i: int, j: int)
    requires IntText(s, i, j)
    ensures NoSeparator(s) && Strip(s) == s[i..j]
  {
    var t := s[i..j];
    assert !IsSpace(t[0]) && !IsSpace(t[|t| - 1]);
    assert SliceBetweenSpace(s, t, i);
    StripUnique(s, t, i);
    forall k | 0 <= k < |s| ensures !IsSeparator(s[k]) {
      if i <= k < j {
        assert s[k] == t[k - i];
      }
    }
  }

  /** `str(n)`. */
  function FormatInt(n: int): (r: string)
    ensures IntLiteral(r)
  {
    (if n < 0 then "-" else "") + NatDigits(Abs(n))
  }

  /** The decimal text of an integer denotes it. */
  lemma LiteralOfFormatInt(n: int)
    ensures LiteralValue(FormatInt(n)) == Some(n)
  {
    var s := FormatInt(n);
    var digits := NatDigits(Abs(n));
    NatDigitsValue(Abs(n));
    if n < 0 {
      assert s == "-" + digits && !IsDigit(s[0]);
      assert s[1..] == digits;
    } else {
      assert s == digits;
    }
  }

  /** Every integer's decimal text parses back to it. */
  lemma FormatIntRoundTrip(n: int)
    ensures ParseInt(FormatInt(n)) == Some(n)
  {
    var s := FormatInt(n);
    LiteralOfFormatInt(n);
    assert s[0..|s|] == s;
    assert IntText(s, 0, |s|);
  }

  lemma NoSeparatorAppend(s: string, c: char)
    requires !IsSeparator(c)
    ensures NoSeparator(s + [c]) == NoSeparator(s)
  {
    assert forall k :: 0 <= k < |s| ==> (s + [c])[k] == s[k];
  }

  lemma NoSeparatorPrepend(s: string, c: char)
    requires !IsSeparator(c)
    ensures NoSeparator([c] + s) == NoSeparator(s)
  {
    assert forall k :: 0 <= k < |s| ==> ([c] + s)[k + 1] == s[k];
  }

  /** Whitespace `int()` skips, added around the text, does not change what
      it parses to. */
  lemma ParseIntIgnoresSpaces(s: string, c: char)
    requires IsIntSpace(c)
    ensures ParseInt(s + [c]) == ParseInt(s)
    ensures ParseInt([c] + s) == ParseInt(s)
  {
    StripAppendSpace(s, c);
    NoSeparatorAppend(s, c);
    StripPrependSpace(s, c);
    NoSeparatorPrepend(s, c);
  }

  /** An information separator anywhere makes `int()` fail, even where
      `strip()` would remove it. */
  lemma SeparatorRejected(s: string, c: char)
    requires IsSeparator(c)
    ensures ParseInt([c] + s) == None
  {
    assert !IsIntSpace(([c] + s)[0]);
    assert forall i, j :: IntText([c] + s, i, j) ==> i == 0;
  }
}

=== FILE: search.dfy ===
/**
 First-match search over a sequence: the "return the first element that
 qualifies, else nothing" loop the client's lookups are built from.
 */
module Search {
  import opened Wrappers

  /** The first element of `xs`, in order, that satisfies `p`. */
  function First<T>(p: T -> bool, xs: seq<T>): (r: Option<T>)
    ensures r.None? <==> forall i :: 0 <= i < |xs| ==> !p(xs[i])
    ensures r.Some? ==> r.value in xs && p(r.value)
  {
    if xs == [] then None
    else if p(xs[0]) then Some(xs[0])
    else First(p, xs[1..])
  }

  /** Position of the element `First` returns; all before it fail `p`. */
  function FirstIndex<T>(p: T -> bool, xs: seq<T>): (i: nat)
    requires First(p, xs).Some?
    ensures i < |xs| && xs[i] == First(p, xs).value
    ensures forall k :: 0 <= k < i ==> !p(xs[k])
  {
    if p(xs[0]) then 0
    else
      var i := FirstIndex(p, xs[1..]);
      assert forall k :: 1 <= k < i + 1 ==> xs[k] == xs[1..][k - 1];
      i + 1
  }

  /** Two tests that agree on every element find the same element. */
  lemma {:induction false} FirstAgrees<T>(p: T -> bool, q: T -> bool, xs: seq<T>)
    requires forall i :: 0 <= i < |xs| ==> p(xs[i]) == q(xs[i])
    ensures First(p, xs) == First(q, xs)
  {
    if xs != [] {
      assert forall i :: 0 <= i < |xs| - 1 ==> xs[1..][i] == xs[i + 1];
      FirstAgrees(p, q, xs[1..]);
    }
  }

  /** The first result, in order, that `f` produces for an element of `xs`. */
  function FirstSome<T, U>(f: T -> Option<U>, xs: seq<T>): (r: Option<U>)
    ensures r.None? <==> forall i :: 0 <= i < |xs| ==> f(xs[i]).None?
  {
    if xs == [] then None
    else if f(xs[0]).Some? then f(xs[0])
    else FirstSome(f, xs[1..])
  }

  /** Position of the element whose result `FirstSome` returns; every
      element before it produces nothing. */
  function FirstSomeIndex<T, U>(f: T -> Option<U>, xs: seq<T>): (i: nat)
    requires FirstSome(f, xs).Some?
    ensures i < |xs| && f(xs[i]) == FirstSome(f, xs)
    ensures forall k :: 0 <= k < i ==> f(xs[k]).None?
  {
    if f(xs[0]).Some? then 0
    else
      var i := FirstSomeIndex(f, xs[1..]);
      assert forall k :: 1 <= k < i + 1 ==> xs[k] == xs[1..][k - 1];
      i + 1
  }

  /** The positions of `xs`, from `lo` on, whose element satisfies `p`. */
  function Positions<T>(p: T -> bool, xs: seq<T>, lo: nat): set<nat> {
    set k: nat | lo <= k < |xs| && p(xs[k])
  }

  /** The elements of `xs[lo..]` that satisfy `p`, in order. */
  function KeepFrom<T>(p: T -> bool, xs: seq<T>, lo: nat): (r: seq<T>)
    requires lo <= |xs|
    ensures forall i :: 0 <= i < |r| ==> r[i] in xs[lo..] && p(r[i])
    ensures forall k :: lo <= k < |xs| && p(xs[k]) ==> xs[k] in r
    ensures |r| == |Positions(p, xs, lo)|
    decreases |xs| - lo
  {
    if lo == |xs| then
      []
    else
      PositionsStep(p, xs, lo);
      (if p(xs[lo]) then [xs[lo]] else []) + KeepFrom(p, xs, lo + 1)
  }

  /** Counting qualifying positions from `lo` is counting `lo` itself, when
      it qualifies, and the positions after it. */
  lemma PositionsStep<T>(p: T -> bool, xs: seq<T>, lo: nat)
    requires lo < |xs|
    ensures |Positions(p, xs, lo)| == |Positions(p, xs, lo + 1)| + if p(xs[lo]) then 1 else 0
  {
    var later := Positions(p, xs, lo + 1);
    assert lo !in later;
    if p(xs[lo]) {
      assert Positions(p, xs, lo) == {lo} + later;
    } else {
      assert Positions(p, xs, lo) == later;
    }
  }

  /** The elements of `xs` that satisfy `p`, in order: Python's
      `[x for x in xs if p(x)]`. Its length is the number of positions whose
      element qualifies. */
  function Keep<T>(p: T -> bool, xs: seq<T>): (r: seq<T>)
    ensures forall i :: 0 <= i < |r| ==> r[i] in xs && p(r[i])
    ensures forall k :: 0 <= k < |xs| && p(xs[k]) ==> xs[k] in r
    ensures |r| == |Positions(p, xs, 0)|
  {
    KeepFrom(p, xs, 0)
  }

  /** Filtering a list with one more element at the end filters the list
      and then adds that element when it qualifies. With `Keep(p, [])`
      empty, this fixes `Keep` completely: it is the qualifying elements, in
      order and with their repetitions. */
  lemma KeepAppend<T>(p: T -> bool, xs: seq<T>, x: T)
    ensures Keep(p, []) == []
    ensures Keep(p, xs + [x]) == Keep(p, xs) + if p(x) then [x] else []
  {
    KeepFromAppend(p, xs, x, 0);
  }

  lemma {:induction false} KeepFromAppend<T>(p: T -> bool, xs: seq<T>, x: T, lo: nat)
    requires lo <= |xs|
    ensures KeepFrom(p, xs + [x], lo) == KeepFrom(p, xs, lo) + if p(x) then [x] else []
    decreases |xs| - lo
  {
    var ys := xs + [x];
    if lo == |xs| {
      assert ys[lo] == x;
      assert KeepFrom(p, ys, lo + 1) == [];
    } else {
      assert ys[lo] == xs[lo];
      KeepFromAppend(p, xs, x, lo + 1);
    }
  }
}

=== FILE: splitwise_client.dfy ===
/**
 The pure decisions of the ledger API client: finding a friend by name or
 email, resolving a category name to a subcategory id, shaping the
 expense-creation payload and reading the reply. The friends list and the
 category tree the client would fetch are passed in.
 */
module SplitwiseClient {
  import opened Wrappers
  import opened Strings
  import opened Models
  import opened Search

  // ---------------------------------------------------------------------
  // Friends

  /** A text field of a JSON object: missing, `null`, or a string. */
  datatype JsonText = Absent | Null | Text(s: string)

  /** A friend record as the ledger lists it. */
  datatype Friend = Friend(id: int, firstName: JsonText, lastName: JsonText, email: JsonText)

  /** A missing or `null` field reads as the empty string. */
  function TextOrEmpty(t: JsonText): string {
    match t
    case Text(s) => s
    case _ => ""
  }

  /** First and last name, lower-cased, joined by a space and stripped. */
  function FullName(f: Friend): (r: string)
    ensures Trimmed(r)
    ensures exists i :: SliceBetweenSpace(Lower(TextOrEmpty(f.firstName)) + " " + Lower(TextOrEmpty(f.lastName)), r, i)
  {
    Strip(Lower(TextOrEmpty(f.firstName)) + " " + Lower(TextOrEmpty(f.lastName)))
  }

  /** The identifier equals, ignoring case, the friend's email, first name,
      last name or full name. */
  predicate Matches(f: Friend, identifier: string) {
    var key := Lower(identifier);
    || Lower(TextOrEmpty(f.email)) == key
    || Lower(TextOrEmpty(f.firstName)) == key
    || Lower(TextOrEmpty(f.lastName)) == key
    || FullName(f) == key
  }

  /** The first friend, in list order, that the identifier matches. */
  function FindUser(identifier: string, friends: seq<Friend>): (r: Option<Friend>)
    ensures r.None? <==> forall i :: 0 <= i < |friends| ==> !Matches(friends[i], identifier)
    ensures r.Some? ==> r.value in friends && Matches(r.value, identifier)
  {
    First(f => Matches(f, identifier), friends)
  }

  /** The friend returned is the first match: every friend before it fails
      to match. */
  lemma FindUserIsFirst(identifier: string, friends: seq<Friend>)
    requires FindUser(identifier, friends).Some?
    ensures exists i :: 0 <= i < |friends| && friends[i] == FindUser(identifier, friends).value
                     && forall k :: 0 <= k < i ==> !Matches(friends[k], identifier)
  {
    var i := FirstIndex(f => Matches(f, identifier), friends);
  }

  /** Two identifiers that differ only in letter case find the same friend. */
  lemma FindUserIgnoresCase(a: string, b: string, friends: seq<Friend>)
    requires Lower(a) == Lower(b)
    ensures FindUser(a, friends) == FindUser(b, friends)
  {
    FirstAgrees(f => Matches(f, a), f => Matches(f, b), friends);
  }

  /** Without a last name, the full name is the first name alone. */
  lemma FullNameWithoutLastName(f: Friend)
    requires f.lastName.Absent? || f.lastName.Null?
    ensures FullName(f) == Strip(Lower(TextOrEmpty(f.firstName)))
  {
    var first := Lower(TextOrEmpty(f.firstName));
    assert Lower("") == "";
    assert first + " " + "" == first + [' '];
    StripAppendSpace(first, ' ');
  }

  /** An empty identifier matches any friend lacking an email or a name,
      since a missing field reads as the empty string. */
  lemma EmptyIdentifierMatchesMissingField(f: Friend)
    requires !f.email.Text? || !f.firstName.Text? || !f.lastName.Text?
    ensures Matches(f, "")
  {
  }

  /** The error Python raises calling `lower()` on a `null` field. */
  datatype LookupError = NullField(field: string)

  /** The lookup exactly as the client evaluates it: the email is lowered
      first, and both names are lowered before either is compared, so a
      `null` in any of them raises before the friend can match. */
  function FindUserAsWritten(identifier: string, friends: seq<Friend>): (r: Result<Option<Friend>, LookupError>)
    ensures r.Success? && r.value.Some? ==> r.value.value in friends && Matches(r.value.value, identifier)
    ensures r.Failure? ==> exists i :: 0 <= i < |friends| && !HasNoNull(friends[i])
  {
    if friends == [] then Success(None)
    else
      var f := friends[0];
      var key := Lower(identifier);
      if f.email.Null? then Failure(NullField("email"))
      else if Lower(TextOrEmpty(f.email)) == key then Success(Some(f))
      else if f.firstName.Null? then Failure(NullField("first_name"))
      else if f.lastName.Null? then Failure(NullField("last_name"))
      else if Matches(f, identifier) then Success(Some(f))
      else FindUserAsWritten(identifier, friends[1..])
  }

  predicate HasNoNull(f: Friend) {
    !f.email.Null? && !f.firstName.Null? && !f.lastName.Null?
  }

  /** Where no friend carries a `null` field, the lookup as written and the
      corrected lookup agree. */
  lemma {:induction false} AsWrittenAgreesWithoutNulls(identifier: string, friends: seq<Friend>)
    requires forall i :: 0 <= i < |friends| ==> HasNoNull(friends[i])
    ensures FindUserAsWritten(identifier, friends) == Success(FindUser(identifier, friends))
  {
    if friends != [] {
      assert forall i :: 0 <= i < |friends| - 1 ==> friends[1..][i] == friends[i + 1];
      AsWrittenAgreesWithoutNulls(identifier, friends[1..]);
    }
  }

  /** A friend with a first name, a `null` last name and no email. */
  function NullLastNamed(id: int, first: string): Friend {
    Friend(id, Text(first), Null, Absent)
  }

  /** A friend whose last name is `null` makes the lookup raise, even when
      a later friend matches. */
  lemma NullLastNameRaises()
    ensures FindUserAsWritten("bob", [NullLastNamed(1, "ann"), Friend(2, Text("bob"), Absent, Absent)])
         == Failure(NullField("last_name"))
  {
    assert |Lower("bob")| == 3;
  }

  /** On the same list the corrected lookup finds the later friend. */
  lemma NullLastNameSkipped()
    ensures FindUser("bob", [NullLastNamed(1, "ann"), Friend(2, Text("bob"), Absent, Absent)])
         == Some(Friend(2, Text("bob"), Absent, Absent))
  {
    var bob := Friend(2, Text("bob"), Absent, Absent);
    LowerOfLowerCase("ann");
    LowerOfLowerCase("bob");
    NullLastNamedMatches(1, "ann", "bob");
    assert Matches(bob, "bob");
    SecondOfTwoFound("bob", NullLastNamed(1, "ann"), bob);
  }

  /** Of two friends where only the second matches, the lookup finds the second. */
  lemma SecondOfTwoFound(identifier: string, a: Friend, b: Friend)
    requires !Matches(a, identifier) && Matches(b, identifier)
    ensures FindUser(identifier, [a, b]) == Some(b)
  {
    var r := FindUser(identifier, [a, b]);
    assert [a, b][1] == b;
    assert r.Some? && (r.value == a || r.value == b);
  }

  /** A friend with only a first name is matched by that name alone. */
  lemma NullLastNamedMatches(id: int, first: string, identifier: string)
    requires Lower(first) == first && Trimmed(first) && identifier != []
    ensures Matches(NullLastNamed(id, first), identifier) <==> Lower(identifier) == first
  {
    var f := NullLastNamed(id, first);
    FullNameOfFirstOnly(id, first);
    var key := Lower(identifier);
    assert key != [] by {
      assert |key| == |identifier|;
    }
    assert Lower(TextOrEmpty(f.email)) == [] && Lower(TextOrEmpty(f.lastName)) == [];
    assert Lower(TextOrEmpty(f.firstName)) == first;
  }

  lemma FullNameOfFirstOnly(id: int, first: string)
    requires Lower(first) == first && Trimmed(first)
    ensures FullName(NullLastNamed(id, first)) == first
  {
    var f := NullLastNamed(id, first);
    assert TextOrEmpty(f.firstName) == first;
    FullNameWithoutLastName(f);
    StripOfTrimmed(first);
  }

  // ---------------------------------------------------------------------
  // Categories

  datatype Subcategory = Subcategory(id: int, name: string)

  /** A top-level category; a missing subcategory list reads as empty. */
  datatype Category = Category(id: int, name: string, subcategories: seq<Subcategory>)

  /** Name of the subcategory a top-level category falls back to. */
  const OtherName: string := "other"

  /** Position of the first subcategory whose lower-cased name is `key`. */
  function FindSub(key: string, subs: seq<Subcategory>): (r: Option<nat>)
    ensures r.None? <==> forall j :: 0 <= j < |subs| ==> Lower(subs[j].name) != key
    ensures r.Some? ==> (r.value < |subs| && Lower(subs[r.value].name) == key
                         && forall j :: 0 <= j < r.value ==> Lower(subs[j].name) != key)
  {
    if subs == [] then None
    else if Lower(subs[0].name) == key then Some(0)
    else match FindSub(key, subs[1..])
      case None => None
      case Some(j) => Some(j + 1)
  }

  /** The category's own name matches and it has an `Other` subcategory. */
  predicate ParentHit(key: string, c: Category) {
    Lower(c.name) == key && exists j :: 0 <= j < |c.subcategories| && Lower(c.subcategories[j].name) == OtherName
  }

  /** Some subcategory of the category has the name sought. */
  predicate SubHit(key: string, c: Category) {
    exists j :: 0 <= j < |c.subcategories| && Lower(c.subcategories[j].name) == key
  }

  /** What one top-level category contributes: its `Other` subcategory when
      its own name matches, else its first subcategory of that name. */
  function CategoryHit(key: string, c: Category): (r: Option<int>)
    ensures r.None? <==> !ParentHit(key, c) && !SubHit(key, c)
    ensures r.Some? ==> exists j :: 0 <= j < |c.subcategories| && c.subcategories[j].id == r.value
    ensures ParentHit(key, c) ==> r == Some(c.subcategories[FindSub(OtherName, c.subcategories).value].id)
    ensures !ParentHit(key, c) && SubHit(key, c) ==> r == Some(c.subcategories[FindSub(key, c.subcategories).value].id)
  {
    var subs := c.subcategories;
    var other := FindSub(OtherName, subs);
    if Lower(c.name) == key && other.Some? then
      Some(subs[other.value].id)
    else
      match FindSub(key, subs)
      case Some(j) => Some(subs[j].id)
      case None => None
  }

  /** The first category, in list order, that contributes an id. */
  function ScanCategories(key: string, categories: seq<Category>): (r: Option<int>)
    ensures r.None? <==> forall i :: 0 <= i < |categories| ==> CategoryHit(key, categories[i]).None?
  {
    FirstSome(c => CategoryHit(key, c), categories)
  }

  /** The id of the category a name denotes, looked up ignoring case. An
      empty name finds nothing. */
  function FindCategory(name: string, categories: seq<Category>): (r: Option<int>)
    ensures name == [] ==> r.None?
    ensures name != [] ==>
      (r.None? <==> forall i :: 0 <= i < |categories| ==>
                      !ParentHit(Lower(name), categories[i]) && !SubHit(Lower(name), categories[i]))
  {
    if name == [] then None else ScanCategories(Lower(name), categories)
  }

  /** Any id found is that of a subcategory, never of a top-level category
      as such. */
  lemma {:induction false} FoundCategoryIsSubcategory(name: string, categories: seq<Category>)
    requires FindCategory(name, categories).Some?
    ensures exists i, j :: 0 <= i < |categories| && 0 <= j < |categories[i].subcategories|
                        && categories[i].subcategories[j].id == FindCategory(name, categories).value
  {
    var i := FirstHitIndex(Lower(name), categories);
    var j :| 0 <= j < |categories[i].subcategories| && categories[i].subcategories[j].id == CategoryHit(Lower(name), categories[i]).value;
  }

  /** Categories are tried in list order: the id found is the contribution
      of the first category that contributes one. */
  lemma {:induction false} FindCategoryIsFirst(name: string, categories: seq<Category>)
    requires FindCategory(name, categories).Some?
    ensures exists i :: 0 <= i < |categories|
                     && CategoryHit(Lower(name), categories[i]) == FindCategory(name, categories)
                     && forall k :: 0 <= k < i ==> CategoryHit(Lower(name), categories[k]).None?
  {
    var i := FirstHitIndex(Lower(name), categories);
  }

  /** Index of the category whose contribution the scan returns. */
  function FirstHitIndex(key: string, categories: seq<Category>): (i: nat)
    requires ScanCategories(key, categories).Some?
    ensures i < |categories|
    ensures CategoryHit(key, categories[i]) == ScanCategories(key, categories)
    ensures forall k :: 0 <= k < i ==> CategoryHit(key, categories[k]).None?
  {
    FirstSomeIndex(c => CategoryHit(key, c), categories)
  }

  /** A top-level match is resolved to the `Other` subcategory even when a
      subcategory also carries the name sought. */
  lemma ParentMatchPrefersOther(name: string, c: Category, rest: seq<Category>)
    requires name != [] && ParentHit(Lower(name), c)
    ensures FindCategory(name, [c] + rest) == Some(c.subcategories[FindSub(OtherName, c.subcategories).value].id)
  {
  }

  /** A top-level match without an `Other` subcategory does not stop the
      search. */
  lemma ParentWithoutOtherFallsThrough(name: string, c: Category, rest: seq<Category>)
    requires name != [] && Lower(c.name) == Lower(name)
    requires forall j :: 0 <= j < |c.subcategories| ==> Lower(c.subcategories[j].name) != OtherName
    requires !SubHit(Lower(name), c)
    ensures FindCategory(name, [c] + rest) == FindCategory(name, rest)
  {
    assert ([c] + rest)[1..] == rest;
  }

  // ---------------------------------------------------------------------
  // Expense creation payload and reply

  /** A JSON value of the request body. */
  datatype Json =
    | JText(text: string)
    | JInt(number: int)
    | JBool(flag: bool)
    | JList(items: seq<Json>)
    | JObject(fields: map<string, Json>)

  const UserKeys: set<string> := {"user_id", "paid_share", "owed_share"}

  /** One user as the API expects it: id and the two shares, no net
      balance. */
  function UserEntry(u: LedgerUser): (r: Json)
    ensures r.JObject? && r.fields.Keys == UserKeys
    ensures r.fields["user_id"] == JInt(u.userId)
    ensures r.fields["paid_share"] == JText(u.paidShare)
    ensures r.fields["owed_share"] == JText(u.owedShare)
  {
    JObject(map["user_id" := JInt(u.userId), "paid_share" := JText(u.paidShare), "owed_share" := JText(u.owedShare)])
  }

  /** The users list, rewritten entry by entry in the same order. */
  function UserEntries(users: seq<LedgerUser>): (r: seq<Json>)
    ensures |r| == |users|
    ensures forall i :: 0 <= i < |users| ==> r[i] == UserEntry(users[i])
  {
    if users == [] then [] else [UserEntry(users[0])] + UserEntries(users[1..])
  }

  /** The top-level fields of the request body. */
  datatype Field =
    | Cost | Description | Details | CurrencyCode | Date
    | CategoryId | GroupId | Users | SplitEqually
  {
    /** The field's name on the wire. */
    function Name(): string {
      match this
      case Cost => "cost"
      case Description => "description"
      case Details => "details"
      case CurrencyCode => "currency_code"
      case Date => "date"
      case CategoryId => "category_id"
      case GroupId => "group_id"
      case Users => "users"
      case SplitEqually => "split_equally"
    }
  }

  /** The field a wire name denotes, if any. */
  function FieldNamed(name: string): Option<Field> {
    if name == "cost" then Some(Cost)
    else if name == "description" then Some(Description)
    else if name == "details" then Some(Details)
    else if name == "currency_code" then Some(CurrencyCode)
    else if name == "date" then Some(Date)
    else if name == "category_id" then Some(CategoryId)
    else if name == "group_id" then Some(GroupId)
    else if name == "users" then Some(Users)
    else if name == "split_equally" then Some(SplitEqually)
    else None
  }

  /** Every field is read back from its wire name, so distinct fields go out
      under distinct names and the body keyed by field is the body keyed by
      name. */
  lemma NameRoundTrip(f: Field)
    ensures FieldNamed(f.Name()) == Some(f)
  {
    match f
    case Cost =>
    case Description =>
    case Details =>
    case CurrencyCode =>
    case Date =>
    case CategoryId =>
    case GroupId =>
    case Users =>
    case SplitEqually =>
  }

  lemma NamesDistinct(f: Field, g: Field)
    requires f != g
    ensures f.Name() != g.Name()
  {
    NameRoundTrip(f);
    NameRoundTrip(g);
  }

  const RequiredFields: set<Field> := {Cost, Description, CurrencyCode, SplitEqually}

  /** The request body: the expense's fields with every unset optional field
      left out, and the users list reduced to the three fields the API
      takes. */
  function ExpensePayload(e: LedgerExpense): (r: map<Field, Json>)
    ensures RequiredFields <= r.Keys
    ensures r[Cost] == JText(e.cost) && r[Description] == JText(e.description)
    ensures r[CurrencyCode] == JText(e.currencyCode) && r[SplitEqually] == JBool(e.splitEqually)
    ensures (Details in r <==> e.details.Some?) && (Date in r <==> e.date.Some?)
    ensures (CategoryId in r <==> e.categoryId.Some?) && (GroupId in r <==> e.groupId.Some?)
    ensures Users in r <==> e.users.Some?
    ensures e.details.Some? ==> r[Details] == JText(e.details.value)
    ensures e.date.Some? ==> r[Date] == JText(e.date.value)
    ensures e.categoryId.Some? ==> r[CategoryId] == JInt(e.categoryId.value)
    ensures e.groupId.Some? ==> r[GroupId] == JInt(e.groupId.value)
    ensures e.users.Some? ==> r[Users].JList? && |r[Users].items| == |e.users.value|
    ensures e.users.Some? ==> forall i :: 0 <= i < |e.users.value| ==> r[Users].items[i] == UserEntry(e.users.value[i])
  {
    map f | f in AllFields && FieldValue(e, f).Some? :: FieldValue(e, f).value
  }

  const AllFields: set<Field> := {Cost, Description, Details, CurrencyCode, Date, CategoryId, GroupId, Users, SplitEqually}

  /** What the record holds for a field, users already reduced; `None` for
      an optional field left unset. */
  function FieldValue(e: LedgerExpense, f: Field): Option<Json> {
    match f
    case Cost => Some(JText(e.cost))
    case Description => Some(JText(e.description))
    case Details => if e.details.Some? then Some(JText(e.details.value)) else None
    case CurrencyCode => Some(JText(e.currencyCode))
    case Date => if e.date.Some? then Some(JText(e.date.value)) else None
    case CategoryId => if e.categoryId.Some? then Some(JInt(e.categoryId.value)) else None
    case GroupId => if e.groupId.Some? then Some(JInt(e.groupId.value)) else None
    case Users => if e.users.Some? then Some(JList(UserEntries(e.users.value))) else None
    case SplitEqually => Some(JBool(e.splitEqually))
  }

  /** An expense built from its required fields alone sends only those. */
  lemma DefaultExpensePayload(cost: string, description: string)
    ensures ExpensePayload(NewLedgerExpense(cost, description)).Keys == RequiredFields
  {
  }

  /** The reply as received: either part may be missing. */
  datatype ApiResponse = ApiResponse(expenses: Option<seq<ExpenseData>>, errors: Option<map<string, seq<string>>>)

  datatype ApiError =
    | Rejected(errors: map<string, seq<string>>)  // a non-empty `errors` object
    | Malformed                                   // no `expenses` list to read

  /** Reads the reply: a non-empty `errors` object is an error; otherwise the
      reply must carry its `expenses`, and `errors` defaults to empty. */
  function ReadResponse(resp: ApiResponse): (r: Result<LedgerExpenseResponse, ApiError>)
    ensures r.Failure? && r.error.Rejected? <==> resp.errors.Some? && resp.errors.value != map[]
    ensures r.Success? <==> (resp.errors.None? || resp.errors.value == map[]) && resp.expenses.Some?
    ensures r.Success? ==> r.value.errors == map[] && r.value.expenses == resp.expenses.value
  {
    if resp.errors.Some? && resp.errors.value != map[] then
      Failure(Rejected(resp.errors.value))
    else if resp.expenses.None? then
      Failure(Malformed)
    else
      Success(LedgerExpenseResponse(resp.expenses.value, resp.errors.GetOr(map[])))
  }
}

=== FILE: strings.dfy ===
/**
 The slice of Python's `str` behaviour the core relies on: `lower()`,
 `upper()` and `strip()`, restricted to ASCII.
 */
module Strings {

  /** Python's `str.isspace` on ASCII: tab, line feed, vertical tab, form
      feed, carriage return (9..13), the four information separators
      (28..31) and space (32). */
  predicate IsSpace(c: char) {
    var n := c as int;
    (9 <= n <= 13) || (28 <= n <= 32)
  }

  predicate AllSpace(s: string) {
    forall i :: 0 <= i < |s| ==> IsSpace(s[i])
  }

  /** True when `s` neither starts nor ends with whitespace. */
  predicate Trimmed(s: string) {
    s == [] || (!IsSpace(s[0]) && !IsSpace(s[|s| - 1]))
  }

  function LowerChar(c: char): char {
    if 'A' <= c <= 'Z' then (c as int + 32) as char else c
  }

  function UpperChar(c: char): char {
    if 'a' <= c <= 'z' then (c as int - 32) as char else c
  }

  /** `str.lower()`: every ASCII capital replaced by its small letter. */
  function Lower(s: string): (r: string)
    ensures |r| == |s|
    ensures forall i :: 0 <= i < |s| ==> r[i] == LowerChar(s[i])
  {
    if s == [] then [] else [LowerChar(s[0])] + Lower(s[1..])
  }

  /** `str.upper()`: every ASCII small letter replaced by its capital. */
  function Upper(s: string): (r: string)
    ensures |r| == |s|
    ensures forall i :: 0 <= i < |s| ==> r[i] == UpperChar(s[i])
  {
    if s == [] then [] else [UpperChar(s[0])] + Upper(s[1..])
  }

  /** No ASCII small letter occurs in `s`. */
  predicate IsUpperCase(s: string) {
    forall i :: 0 <= i < |s| ==> !('a' <= s[i] <= 'z')
  }

  lemma UpperIsUpperCase(s: string)
    ensures IsUpperCase(Upper(s))
  {
  }

  /** Upper-casing an already upper-case string changes nothing. */
  lemma UpperFixesUpperCase(s: string)
    requires IsUpperCase(s)
    ensures Upper(s) == s
  {
    assert forall i :: 0 <= i < |s| ==> Upper(s)[i] == s[i];
  }

  /** Upper-casing keeps the letters: both spellings lower-case alike. */
  lemma LowerOfUpper(s: string)
    ensures Lower(Upper(s)) == Lower(s)
  {
    assert forall i :: 0 <= i < |s| ==> Lower(Upper(s))[i] == Lower(s)[i];
  }

  /** A string without ASCII capitals is its own lower-case form. */
  lemma LowerOfLowerCase(s: string)
    requires forall i :: 0 <= i < |s| ==> !('A' <= s[i] <= 'Z')
    ensures Lower(s) == s
  {
    assert forall i :: 0 <= i < |s| ==> Lower(s)[i] == s[i];
  }

  /** Number of leading whitespace characters. */
  function LeftEdge(s: string): (i: nat)
    ensures i <= |s|
    ensures forall k :: 0 <= k < i ==> IsSpace(s[k])
    ensures i == |s| || !IsSpace(s[i])
  {
    if |s| > 0 && IsSpace(s[0]) then 1 + LeftEdge(s[1..]) else 0
  }

  /** Length of `s` once its trailing whitespace is dropped. */
  function RightEdge(s: string): (j: nat)
    ensures j <= |s|
    ensures forall k :: j <= k < |s| ==> IsSpace(s[k])
    ensures j == 0 || !IsSpace(s[j - 1])
  {
    if |s| > 0 && IsSpace(s[|s| - 1]) then RightEdge(s[..|s| - 1]) else |s|
  }

  /** `r` is the slice of `s` starting at `i`, and everything of `s` outside
      that slice is whitespace. */
  predicate SliceBetweenSpace(s: string, r: string, i: int) {
    && 0 <= i <= |s| - |r|
    && r == s[i..i + |r|]
    && (forall k :: 0 <= k < i ==> IsSpace(s[k]))
    && (forall k :: i + |r| <= k < |s| ==> IsSpace(s[k]))
  }

  /** `str.strip()` with no argument: `s` without its leading and trailing
      whitespace. */
  function Strip(s: string): (r: string)
    ensures r == [] <==> AllSpace(s)
    ensures Trimmed(r)
    ensures exists i :: SliceBetweenSpace(s, r, i)
  {
    var i := LeftEdge(s);
    var t := s[i..];
    var j := RightEdge(t);
    assert t[..j] == s[i..i + j];
    assert SliceBetweenSpace(s, t[..j], i);
    t[..j]
  }

  /** Strip is characterised by its contract: any trimmed slice that only
      whitespace surrounds is the stripped string. */
  lemma StripUnique(s: string, r: string, i: int)
    requires SliceBetweenSpace(s, r, i)
    requires Trimmed(r)
    ensures Strip(s) == r
  {
    var r' := Strip(s);
    var i' :| SliceBetweenSpace(s, r', i');
    if r == [] {
      assert forall k :: 0 <= k < |s| ==> IsSpace(s[k]) by {
        forall k | 0 <= k < |s| ensures IsSpace(s[k]) {
          if k < i { } else { assert i + |r| <= k; }
        }
      }
    } else {
      assert s[i] == r[0] && !IsSpace(s[i]);
      assert r' != [] by {
        assert !AllSpace(s);
      }
      assert s[i'] == r'[0] && !IsSpace(s[i']);
      assert i == i';
      var e, e' := i + |r|, i' + |r'|;
      assert s[e - 1] == r[|r| - 1] && !IsSpace(s[e - 1]);
      assert s[e' - 1] == r'[|r'| - 1] && !IsSpace(s[e' - 1]);
      assert e == e';
    }
  }

  /** A string without surrounding whitespace is its own strip. */
  lemma StripOfTrimmed(s: string)
    requires Trimmed(s)
    ensures Strip(s) == s
  {
    assert SliceBetweenSpace(s, s, 0);
    StripUnique(s, s, 0);
  }

  /** Stripping twice is stripping once. */
  lemma StripIdempotent(s: string)
    ensures Strip(Strip(s)) == Strip(s)
  {
    StripOfTrimmed(Strip(s));
  }

  /** Trailing whitespace added to a string is stripped away again. */
  lemma StripAppendSpace(s: string, c: char)
    requires IsSpace(c)
    ensures Strip(s + [c]) == Strip(s)
  {
    var r := Strip(s);
    var i :| SliceBetweenSpace(s, r, i);
    var s' := s + [c];
    assert r == s'[i..i + |r|];
    assert SliceBetweenSpace(s', r, i);
    StripUnique(s', r, i);
  }

  /** Leading whitespace added to a string is stripped away again. */
  lemma StripPrependSpace(s: string, c: char)
    requires IsSpace(c)
    ensures Strip([c] + s) == Strip(s)
  {
    var r := Strip(s);
    var i :| SliceBetweenSpace(s, r, i);
    var s' := [c] + s;
    assert r == s'[i + 1..i + 1 + |r|];
    assert SliceBetweenSpace(s', r, i + 1);
    StripUnique(s', r, i + 1);
  }
}

=== FILE: wrappers.dfy ===
/**
 Optional values and results with an error channel, standing in for
 Python's `None` returns and raised exceptions.
 */
module Wrappers {

  /** A value that may be absent (Python's `Optional[T]`). */
  datatype Option<+T> = None | Some(value: T) {

    /** The wrapped value, or `default` when absent. */
    function GetOr(default: T): T {
      match this
      case Some(v) => v
      case None => default
    }
  }

  /** Either an accepted value or the error that Python would raise. */
  datatype Result<+R, +E> = Success(value: R) | Failure(error: E)
}
